=== FILE: README.md ===
# Valentine card interaction core, in Dafny

This project models the interaction logic of a single-page greeting card
(`script.js`) without the browser. The page asks three questions and ends on a
celebration screen. Five pieces of logic are modelled as pure functions over
immutable values:

- **Kiss counter** (`KissCounter`). A session-scoped cell that is unset at first.
  Every "wrong" interaction bumps it the same way: unset becomes 1 and n becomes
  2n. The celebration message shows the counter, or 1 when it is unset.
- **Config validation** (`ConfigCheck`). `validateConfig` defaults a missing or
  empty name to "My Love". It replaces every colour that is not `#` followed by
  3 or 6 hex digits with `getDefaultColor(key)`, and resets a
  `heartExplosionSize` outside [1, 3] to 1.5. It logs one warning per repair.
- **Love meter** (`LoveMeter`). Slider thresholds decide which message shows
  and which retry level "Next" leaves pending. A tier message shows above 100,
  the high one above 1000, and the extreme one from 5000. The retry level "Next"
  leaves is high from 1000. So at exactly 1000 the two disagree.
- **Floater bursts** (`Burst`). A click runs `tick` once straight away. Each
  tick creates up to 10 elements and re-arms a 30 ms timer while fewer than 100
  exist. Once the clock reaches start + 3000 ms, a tick does nothing and the
  timer is not re-armed. Clock readings are parameters.
- **Question flow** (`Flow`). The script's globals are one `State` record, and
  each event handler is a function on it. The record holds the visible section,
  the counter, the slider value, `showingNextMessageLevel`, the message line,
  every burst started so far, and the celebration count.

Behaviour a reader might expect that the script does not have; the model
follows the script:

- Starting a burst does not cancel an earlier one. Each trigger starts an
  independent burst (`Flow.BurstsAreNotCancelled`).
- A burst's interval, batch size, cap and duration are the fixed constants at
  `script.js:215-218`. They are not derived from the configuration's
  `floaterBurstDuration`/`floaterBurstMax`, which the script never reads.
- A question-1 click does not move the page to question 2. That is the separate
  handler `goToSecondQuestion`.
- The slider is not reset when question 2 is shown. `setInitialPosition` runs
  only at page load: on `DOMContentLoaded` (`Flow.Init`) and again on `load`
  (`Flow.SetInitialPosition`). A `load` that arrives after the slider was moved
  puts it back to 100 without clearing a pending retry level.
- There is no timed reveal phase before the celebration, and no audio cue.

## Model

| member | source | states |
|---|---|---|
| KissCounter.Bump | script.js:77-80 | The bumped counter is always set. It is 1 exactly when the counter was unset, and even when it was set. `Unbump` recovers the previous cell from it, so a set n becomes exactly 2n. It never decreases, and it strictly increases from a positive value. |
| KissCounter.BumpKeepsReachable | script.js:109-112 | A bump keeps the counter a power of two, at least 1. |
| KissCounter.BumpNFromUnset | script.js:242-244 | After k >= 1 wrong interactions from an unset cell, the counter holds exactly 2^(k-1). |
| KissCounter.BumpNNeverDecreases | script.js:77-80 | Repeated bumps never lower a counter that is unset or positive, and leave it set and positive. |
| KissCounter.CelebrationCount | script.js:337-338 | The celebration count is at least 1 for every counter a session can produce. |
| KissCounter.CelebrationCountAfter | script.js:337-343 | On the idealised cell, k wrong interactions make the message owe 2^(k-1) kisses, or 1 when k = 0. |
| KissCounter.Load | script.js:59-62 | Reading the cell back keeps it unset or set. A stored value below 10^21 reads back as itself; one from 10^21 up reads back as a single digit. |
| KissCounter.CelebrationCountAsWritten | script.js:337-338 | The count the page shows is 1 for an unset cell, and equals the idealised count for every stored value below 10^21. |
| KissCounter.CelebrationAsWrittenAgrees | script.js:337-338 | For up to 70 wrong interactions the page shows the idealised count 2^(k-1). |
| KissCounter.CelebrationAfter71AsWritten | script.js:337-338 | After 71 wrong interactions the idealised count is 2^70, but the page shows 1. |
| KissCounter.BumpAsWritten | script.js:59-66 | The bump read through `String`/`parseInt` agrees with `Bump` for every stored value below 10^21. |
| KissCounter.StoredCounterFallsBackAt70 | script.js:59-66 | 2^69 still round-trips and doubles to 2^70. But 2^70 reads back as 1, so the next bump stores 2 and the counter decreases, and a celebration shows 1. |
| ConfigCheck.IsValidHex | script.js:15 | True iff the string is `#` followed by exactly 3 or exactly 6 characters from [0-9A-Fa-f]. This is stated against an independent grammar predicate. |
| ConfigCheck.DefaultColor | script.js:42-51 | The result is a colour string exactly for the five known keys, and each built-in default passes the hex test. Any other key gives a value that fails the hex test: `undefined`, or an inherited member such as `Object` for `constructor`. |
| ConfigCheck.FixColor | script.js:16-21 | The key is kept. A valid colour is untouched. An invalid one becomes the key's default, so a known key ends valid. |
| ConfigCheck.FixColors | script.js:16-21 | All entries are kept in order with the same keys. Valid colours are untouched, and each invalid one is replaced by its key's default. |
| ConfigCheck.ColorWarnings | script.js:16-18 | Every failing entry's key is reported, and every warning names a failing entry. There are exactly as many warnings as failing entries, and none iff every colour is valid. |
| ConfigCheck.Validate | script.js:5-32 | A missing or empty name becomes "My Love", and a set name is kept. Colours are repaired. The explosion size ends in [1, 3] when present, with out-of-range values becoming 1.5 and in-range values kept. There is a name warning iff the name was missing, and a size warning iff the size was out of range. A colour warning names key k iff an entry with key k failed. The number of warnings is the number of repairs. |
| ConfigCheck.SilentIffWellFormed | script.js:34-38 | Validation logs nothing iff the configuration already passes every check. In that case it is left unchanged. |
| ConfigCheck.KnownKeysRepaired | script.js:16-21 | When every colour key is a known key, one validation makes every check pass. |
| ConfigCheck.ValidateIdempotent | script.js:5-32 | Validating twice gives the same configuration as validating once. The second pass can only warn about unknown colour keys. |
| LoveMeter.TierOf | script.js:280-291 | Extreme iff v >= 5000. High iff 1000 < v < 5000. Normal iff 100 < v <= 1000. No tier iff v <= 100. |
| LoveMeter.UpdateLoveMessage | script.js:280-291 | Above 100 the message becomes the value's tier message. At or below 100 the message is unchanged. |
| LoveMeter.RetryLevel | script.js:246-255 | The retry level is high iff the value is at least 1000, and normal iff it is below 1000. |
| LoveMeter.RetryLevelVersusTier | script.js:246-255 | Below 5000, "Next" reports high exactly where the meter shows high, plus at 1000, which the meter still counts as normal. |
| Burst.Tick | script.js:92-104 | A tick keeps the burst within its cap. It creates at most 10 and adds them to the count. It creates nothing and disarms at or past the deadline. It creates a full batch when before the deadline and under the cap, and then re-arms the timer iff the count is still below 100. |
| Burst.Fire | script.js:103 | Without a pending timer nothing happens. Otherwise it runs one tick: at or past the deadline it creates nothing and disarms; before the deadline and under the cap it creates 10 and stays armed iff the count is below 100. |
| Burst.Start | script.js:88-105 | The deadline is start + 3000 ms, and the first tick has created 10 with the timer armed. |
| Burst.FireAll | script.js:92-104 | Any sequence of firings keeps the cap and the deadline, and never lowers the created count. |
| Burst.FireAllInWindow | script.js:93-103 | Firings before the deadline each add 10 until 100. |
| Burst.UndisturbedBurstFills | script.js:215-218 | With the 30 ms timer undisturbed, the burst reaches 100 on the ninth firing, 270 ms in, and leaves no timer. |
| Burst.Run | script.js:117-135 | A whole burst creates at most 100, at most 10 per tick. Nothing is created at or after a firing at or past the deadline. When every firing is before the deadline, it creates min(100, 10 per tick). |
| Flow.Init | script.js:274-278 | On page load question 1 shows, the slider is at 100, nothing is pending, no burst runs and no count is owed. The counter is whatever the session stored. The load state satisfies the flow invariant iff that stored counter is one a session can produce. |
| Flow.FirstQuestionClick | script.js:77-86 | The counter is bumped, and one emoji burst of the clicked button's kind is appended. The new burst is started at the click, with 10 created. Nothing else changes: section, slider, pending level, text and owed count are kept. |
| Flow.GoToSecondQuestion | script.js:227-230 | Question 2 shows. The slider keeps its value, and nothing else changes. |
| Flow.SecondQuestionNext | script.js:236-258 | At >= 5000 the page moves to question 3, the counter is unchanged and the pending level is cleared. Below 5000 the section stays and the counter is bumped. The pending level is high iff 1000 <= v < 5000 and normal iff v < 1000, and the retry message shows. |
| Flow.SliderInteraction | script.js:293-302 | The pending level is always cleared. With nothing pending the state is unchanged. With a level pending and the value above 100, the value's tier message shows. |
| Flow.SliderInput | script.js:304-321 | The slider takes the value and the pending level is cleared. Above 100 the tier message shows. At or below 100 the text is unchanged. Nothing else changes. |
| Flow.ThirdQuestionNo | script.js:109-115 | The counter is bumped, and one "Wrong answer!" burst started at the click is appended, with 10 created. Nothing else changes. |
| Flow.Celebrate | script.js:331-343 | The celebration shows. The count is the counter if set, otherwise 1. Nothing else changes, including the counter. |
| Flow.SetInitialPosition | script.js:274-278 | The slider goes back to 100. The section, counter, pending level and message line are kept, because no `input` event fires. |
| Flow.LateLoadBlocksUnlock | script.js:327-328 | On question 2, "Next" after moving the slider to 5000 unlocks question 3. If the `load` event comes in between, "Next" instead bumps the counter, stays on question 2 and leaves the normal retry level pending. |
| Flow.TimerFires | script.js:121-134 | The firing burst advances by one `Burst.Fire` at the given clock reading, so it obeys the deadline and batch rules. Only that burst changes. Every burst keeps its kind and deadline and never loses created elements. |
| Flow.StepKeepsInv | script.js:77-343 | Every handler keeps the counter a power of two, every burst within its cap, and the celebration count a power of two. |
| Flow.RunKeepsInv | script.js:77-134 | Any sequence of events keeps that invariant. |
| Flow.RunMonotone | script.js:88-135 | Over any sequence of events the counter never decreases and stays set once set. Each burst keeps its kind and deadline, and its created count never decreases. |
| Flow.ReachableBounds | script.js:215-218 | In every state reachable from page load, each burst has created at most 100, and the celebration count is at least 1. |
| Flow.Question3OnlyByUnlock | script.js:238-241 | Question 3 is entered only by "Next" with the slider at 5000 or more. |
| Flow.NextBumpsIffLocked | script.js:236-244 | In a reachable state, "Next" leaves the counter unchanged iff it unlocks question 3. |
| Flow.SliderPressIdempotent | script.js:293-302 | A second slider press with the same value has no further effect. |
| Flow.RetryClearedByTouch | script.js:232-302 | After a failed "Next", touching the slider clears the retry level. Above 100 it brings back the tier message for the same value. |
| Flow.FlowMovesForward | script.js:220-230 | Along events the user can cause, the visible section never moves backwards. |
| Flow.BurstsAreNotCancelled | script.js:88-106 | Two question-1 clicks 10 ms apart leave two bursts, both still armed, with 20 elements created. |
| Flow.SampleSession | script.js:236-258 | On a fresh tab: "No" gives counter 1 and stays on question 1. At 1000, "Next" gives 2 with the high retry level. At 5000, "Next" unlocks question 3. Then "No" and the celebration owe 4. |

## Left out

- DOM work is not modelled: creating and removing elements, toggling the
  `hidden` and `super-love` classes, and `showNextQuestion`'s class changes.
  Only the visible section and which message the line shows are kept. The
  element removal in `goToSecondQuestion` and `celebrate` is not modelled, because
  it does not affect any state the handlers read.
- Message strings and their `||` fallbacks are abstracted to which message is
  shown (`LoveMeter.Text`). The celebration text is reduced to its number.
- `updateKissCounterDisplay` and the start-up text assignments are left out,
  because they only display values.
- Flow uses the idealised `KissCounter.Bump`, not `KissCounter.BumpAsWritten`.
  So `Flow.RunMonotone`'s "the counter never decreases" holds for the page only
  while the stored counter is below 10^21. That covers the first 71 wrong
  interactions; the 72nd lowers it to 2. See "## Findings".
- KissCounter.CelebrationCountAfter: the 2^(k-1) count holds for the page only
  for k <= 70. `Flow.Celebrate` likewise reads the idealised cell. After 71 wrong
  interactions the page shows 1 (`KissCounter.CelebrationAfter71AsWritten`).
- The session storage is modelled as an `Option<nat>` cell in the main model.
  Parsing a stored string that is not a number (NaN) is left out, because the
  script only ever stores counter values.
- The `floatDuration` check (`parseFloat(...) < 5`) is left out because it parses
  a float from a string.
- ConfigCheck.Validate: a `heartExplosionSize` that is present but not a number
  is not modelled. The script compares it after type coercion: `null` counts as
  0 and is reset to 1.5 with a warning, and a numeric string such as "5" counts
  as its number. Missing and NaN are both `None` and are left alone, because
  both comparisons are then false.
- ConfigCheck.FixColor: a colour value that is not a string but whose string
  form passes the hex test (an array `['#fff']`, a `String` object) passes
  `isValidHex` in the script, because `test` converts its argument to a string.
  The model treats every non-string value as failing. Configuration colours are
  strings.
- Burst.Start: one clock reading serves as both the deadline base and the first
  tick's time. The script calls `Date.now()` twice, at script.js:90 and :93.
  The first tick misses the window only if those two readings are 3000 ms apart.
- Random placement is left out: `moveButton`, `setRandomPosition*`,
  `createHeartExplosion` and `createFloatingElements` are random visual decoration.
- The music player is left out, because it is promise-based audio I/O.
- `theme.js` (CSS variables) and `config.js` (static data) are left out.
- The 30 ms timer spacing is not enforced. Timer firings happen at arbitrary
  clock readings, which only a host scheduler would constrain;
  `Burst.UndisturbedBurstFills` covers the undisturbed case.
- Which button calls `goToSecondQuestion` and `celebrate` is decided by
  index.html, which is not part of this model. The handlers are unguarded, as in
  the script. `Flow.Clickable` states the assumption that a button is clicked only
  while its section is shown.
- Flow.FirstQuestionClick: the `moveButton` call is left out (random placement).
- Flow.ThirdQuestionNo: the `moveButton` call is left out (random placement).

## Findings

| source | as written | input that shows it | evidently intended | confidence | as-written member | corrected member |
|---|---|---|---|---|---|---|
| script.js:59-66 | `setKissCount` stores `String(value)` and `getKissCount` reads `parseInt(raw, 10)`. From 10^21 up, `String` writes exponent notation, and `parseInt` stops at the `.` | 71 wrong interactions store 2^70 as "1.1805916207174113e+21". A celebration at that point reads it back as 1 and owes 1 kiss. A 72nd wrong interaction reads 1 and stores 2 | the counter keeps doubling and never decreases, and the celebration shows it | not executed; high (JavaScript number formatting rule) | KissCounter.StoredCounterFallsBackAt70 | KissCounter.Bump |

=== FILE: base.dfy ===
/** Small shared definitions: an optional value standing for the script's `null`
    and `undefined`, and powers of two (the values the kiss counter takes). */
module Base {

  /** `None` is the script's `null` / `undefined`; `Some(v)` a present value. */
  datatype Option<+T> = None | Some(value: T) {

    /** The value, or `default` when absent (the script's `x !== null ? x : d`). */
    function GetOr(default: T): T {
      match this
      case Some(v) => v
      case None => default
    }
  }

  /** 2 raised to `k`. */
  function Pow2(k: nat): (p: nat)
    ensures p >= 1
    ensures k >= 1 ==> p % 2 == 0
  {
    if k == 0 then 1 else 2 * Pow2(k - 1)
  }

  /** `n` is 2^k for some k. */
  ghost predicate IsPowerOfTwo(n: nat) {
    exists k: nat :: Pow2(k) == n
  }

  function Min(a: int, b: int): int {
    if a <= b then a else b
  }
}

=== FILE: burst.dfy ===
/** The timed floater burst of `burstFirstQuestionEmojis` and
    `createFloatingWrongAnswers`: both run the same `tick` closure, which creates
    up to 10 elements per tick, re-arms a 30 ms timer while fewer than 100 exist,
    and does nothing once the clock reaches the deadline. Clock readings are
    parameters; element placement (random) is not modelled. */
module Burst {
  import opened Base

  const BurstMs: int := 3000
  const MaxTotal: nat := 100
  const IntervalMs: nat := 30
  const BatchSize: nat := 10

  /** One running burst: its deadline, how many elements it has created, and
      whether a timer for its next tick is pending. */
  datatype Burst = Burst(endAt: int, created: nat, armed: bool)

  /** What every burst satisfies: never more than the cap, created in whole
      batches, and no timer left once the cap is reached. */
  predicate Valid(b: Burst) {
    b.created <= MaxTotal && b.created % BatchSize == 0 && (b.created == MaxTotal ==> !b.armed)
  }

  /** One run of `tick` at clock reading `now`, when it is invoked: the new
      burst and the number of elements created by this run. */
  function Tick(b: Burst, now: int): (r: (Burst, nat))
    ensures Valid(b) ==> Valid(r.0)
    ensures r.0.endAt == b.endAt
    ensures r.0.created == b.created + r.1
    ensures r.1 <= BatchSize
    ensures now >= b.endAt ==> r.1 == 0 && !r.0.armed
    ensures Valid(b) && now < b.endAt && b.created < MaxTotal ==> r.1 == BatchSize
    ensures now < b.endAt && b.created < MaxTotal ==> (r.0.armed <==> r.0.created < MaxTotal)
  {
    if now >= b.endAt || b.created >= MaxTotal then
      (Burst(b.endAt, b.created, false), 0)
    else
      var toCreate := Min(BatchSize, MaxTotal - b.created);
      var created := b.created + toCreate;
      (Burst(b.endAt, created, created < MaxTotal), toCreate)
  }

  /** The burst's pending timer firing at `now`; nothing happens without one. */
  function Fire(b: Burst, now: int): (r: (Burst, nat))
    ensures Valid(b) ==> Valid(r.0)
    ensures r.0.endAt == b.endAt
    ensures r.0.created == b.created + r.1
    ensures r.1 <= BatchSize
    ensures !b.armed ==> r == (b, 0)
    ensures b.armed ==> r == Tick(b, now)
    ensures now >= b.endAt ==> r.1 == 0 && !r.0.armed
    ensures Valid(b) && b.armed && now < b.endAt && b.created < MaxTotal ==>
              r.1 == BatchSize && (r.0.armed <==> r.0.created < MaxTotal)
  {
    if b.armed then Tick(b, now) else (b, 0)
  }

  /** Starting a burst at `now`: set the deadline and run the first tick at once. */
  function Start(now: int): (r: Burst)
    ensures Valid(r)
    ensures r.endAt == now + BurstMs
    ensures r.created == BatchSize && r.armed
  {
    Tick(Burst(now + BurstMs, 0, true), now).0
  }

  function Sum(s: seq<nat>): nat {
    if s == [] then 0 else Sum(s[..|s| - 1]) + s[|s| - 1]
  }

  /** The burst after its timer fires at each reading of `clock` in turn. */
  function FireAll(b: Burst, clock: seq<int>): (r: Burst)
    ensures Valid(b) ==> Valid(r)
    ensures r.endAt == b.endAt
    ensures r.created >= b.created
  {
    if clock == [] then b else Fire(FireAll(b, clock[..|clock| - 1]), clock[|clock| - 1]).0
  }

  /** Firings that all come before the deadline each add a full batch until
      the cap is reached. */
  lemma {:induction false} FireAllInWindow(b: Burst, clock: seq<int>)
    requires Valid(b) && (b.armed <==> b.created < MaxTotal)
    requires forall i :: 0 <= i < |clock| ==> clock[i] < b.endAt
    ensures FireAll(b, clock).created == Min(MaxTotal, b.created + BatchSize * |clock|)
    ensures FireAll(b, clock).armed <==> FireAll(b, clock).created < MaxTotal
  {
    if clock != [] {
      FireAllInWindow(b, clock[..|clock| - 1]);
    }
  }

  /** The clock readings of an undisturbed timer: every 30 ms after `start`. */
  function TimerClock(start: int, n: nat): (clock: seq<int>)
    ensures |clock| == n
    ensures forall i :: 0 <= i < n ==> clock[i] == start + IntervalMs * (i + 1)
  {
    seq(n, i requires 0 <= i < n => start + IntervalMs * (i + 1))
  }

  /** With an undisturbed timer the burst reaches its cap of 100 on the ninth
      firing, 270 ms after it started, well inside its 3000 ms window, and no
      timer remains. */
  lemma UndisturbedBurstFills(start: int)
    ensures FireAll(Start(start), TimerClock(start, 9)).created == MaxTotal
    ensures !FireAll(Start(start), TimerClock(start, 9)).armed
  {
    FireAllInWindow(Start(start), TimerClock(start, 9));
  }

  /** A whole burst: started at `start`, then its timer fires at each reading of
      `clock`. `emitted[0]` is the first tick's batch and `emitted[i + 1]` what
      the firing at `clock[i]` created. At most 100 in total and 10 per tick;
      nothing after the deadline or after any firing at or past it; and when every
      firing comes before the deadline, the burst creates 10 per firing up to 100. */
  method Run(start: int, clock: seq<int>) returns (b: Burst, emitted: seq<nat>)
    ensures b == FireAll(Start(start), clock)
    ensures b.endAt == start + BurstMs
    ensures |emitted| == |clock| + 1
    ensures b.created == Sum(emitted) <= MaxTotal
    ensures forall i :: 0 <= i < |emitted| ==> emitted[i] <= BatchSize
    ensures forall i, j :: 0 <= i < |clock| && i < j < |emitted| && clock[i] >= b.endAt ==> emitted[j] == 0
    ensures (forall i :: 0 <= i < |clock| ==> clock[i] < b.endAt) ==>
              b.created == Min(MaxTotal, BatchSize * (|clock| + 1))
  {
    b := Start(start);
    emitted := [BatchSize];
    var k := 0;
    while k < |clock|
      invariant 0 <= k <= |clock|
      invariant Valid(b)
      invariant b == FireAll(Start(start), clock[..k])
      invariant b.endAt == start + BurstMs
      invariant |emitted| == k + 1
      invariant b.created == Sum(emitted)
      invariant forall i :: 0 <= i < |emitted| ==> emitted[i] <= BatchSize
      invariant (exists i :: 0 <= i < k && clock[i] >= b.endAt) ==> !b.armed
      invariant forall i, j :: 0 <= i < k && i < j < |emitted| && clock[i] >= b.endAt ==> emitted[j] == 0
    {
      assert clock[..k + 1][..k] == clock[..k];
      var r := Fire(b, clock[k]);
      assert Valid(r.0) && r.0.endAt == b.endAt && r.0.created == b.created + r.1;
      assert Sum(emitted + [r.1]) == Sum(emitted) + r.1 by {
        assert (emitted + [r.1])[..|emitted|] == emitted;
      }
      b := r.0;
      emitted := emitted + [r.1];
      k := k + 1;
    }
    assert clock[..|clock|] == clock;
    if forall i :: 0 <= i < |clock| ==> clock[i] < b.endAt {
      FireAllInWindow(Start(start), clock);
    }
  }
}

=== FILE: config_check.dfy ===
/** The start-up validation of the card's configuration (`validateConfig`,
    `isValidHex`, `getDefaultColor` in script.js). Only the fields it inspects
    are modelled; the float-duration check is left out (it parses a float). */
module ConfigCheck {
  import opened Base

  /** One entry of `config.colors`, in `Object.entries` order. `Some(s)` is a
      string value; `None` stands for `undefined` and for any other value whose
      string form fails the hex test. A non-string whose string form passes
      (an array `['#fff']`, a `String` object) is not modelled. */
  datatype ColorEntry = ColorEntry(key: string, value: Option<string>)

  /** The parts of the configuration `validateConfig` reads and rewrites.
      `heartExplosionSize` is `None` when missing or NaN, the two cases in which
      both range comparisons are false. */
  datatype Config = Config(
    valentineName: Option<string>,
    colors: seq<ColorEntry>,
    heartExplosionSize: Option<real>)

  /** The warnings `validateConfig` logs, in the order it pushes them. */
  datatype Warning = NameMissing | InvalidColor(key: string) | ExplosionSizeOutOfRange

  datatype Validated = Validated(config: Config, warnings: seq<Warning>)

  const DefaultName: string := "My Love"
  const DefaultExplosionSize: real := 1.5

  predicate IsHexDigit(c: char) {
    '0' <= c <= '9' || 'a' <= c <= 'f' || 'A' <= c <= 'F'
  }

  predicate AllHex(d: string) {
    forall i :: 0 <= i < |d| ==> IsHexDigit(d[i])
  }

  /** The colour pattern `^#([A-Fa-f0-9]{6}|[A-Fa-f0-9]{3})$`, read as a grammar:
      a '#' followed by a run of exactly six or exactly three hex digits. */
  ghost predicate HexColor(s: string) {
    exists d: string :: (|d| == 3 || |d| == 6) && AllHex(d) && s == ['#'] + d
  }

  /** `isValidHex`: the string is a 3- or 6-digit hex colour. */
  function IsValidHex(s: string): (ok: bool)
    ensures ok <==> HexColor(s)
  {
    HexColorByLength(s);
    (|s| == 4 || |s| == 7) && s[0] == '#' && AllHex(s[1..])
  }

  lemma HexColorByLength(s: string)
    ensures HexColor(s) <==> (|s| == 4 || |s| == 7) && s[0] == '#' && AllHex(s[1..])
  {
    if (|s| == 4 || |s| == 7) && s[0] == '#' && AllHex(s[1..]) {
      assert s == ['#'] + s[1..];
    }
    if HexColor(s) {
      var d: string :| (|d| == 3 || |d| == 6) && AllHex(d) && s == ['#'] + d;
      assert s[1..] == d;
    }
  }

  /** The built-in colours of `getDefaultColor`, by key. */
  const Defaults: map<string, string> := map[
    "backgroundStart" := "#ffafbd",
    "backgroundEnd" := "#ffc3a0",
    "buttonBackground" := "#ff6b6b",
    "buttonHover" := "#ff8787",
    "textColor" := "#ff4757"]

  /** The keys `getDefaultColor` knows. */
  const KnownKeys: set<string> := Defaults.Keys

  /** Every built-in colour is `#` and six hex digits. */
  lemma DefaultsAreValid()
    ensures forall k :: k in Defaults ==> IsValidHex(Defaults[k])
  {
    forall k | k in Defaults
      ensures IsValidHex(Defaults[k])
    {
      var v := Defaults[k];
      assert |v| == 7 && v[0] == '#';
      assert AllHex(v[1..]);
    }
  }

  /** `getDefaultColor`: the built-in colour for a known key. For any other key
      `None`, standing for a value that fails the hex test: `undefined`, or an
      inherited member of the lookup object such as `Object` for `constructor`.
      Every built-in colour passes the hex test. */
  function DefaultColor(key: string): (r: Option<string>)
    ensures r.Some? <==> key in KnownKeys
    ensures r.Some? ==> IsValidHex(r.value)
  {
    DefaultsAreValid();
    if key in Defaults then Some(Defaults[key]) else None
  }

  predicate ValidColor(e: ColorEntry) {
    e.value.Some? && IsValidHex(e.value.value)
  }

  /** The colour loop for one entry: an invalid value is replaced by the default
      for its key; a valid one is kept. */
  function FixColor(e: ColorEntry): (r: ColorEntry)
    ensures r.key == e.key
    ensures ValidColor(e) ==> r == e
    ensures !ValidColor(e) ==> r.value == DefaultColor(e.key)
    ensures e.key in KnownKeys ==> ValidColor(r)
  {
    if ValidColor(e) then e else ColorEntry(e.key, DefaultColor(e.key))
  }

  /** The colour loop over all entries, in order. */
  function FixColors(cs: seq<ColorEntry>): (r: seq<ColorEntry>)
    ensures |r| == |cs|
    ensures forall i :: 0 <= i < |cs| ==> r[i].key == cs[i].key
    ensures forall i :: 0 <= i < |cs| && ValidColor(cs[i]) ==> r[i] == cs[i]
    ensures forall i :: 0 <= i < |cs| && !ValidColor(cs[i]) ==> r[i].value == DefaultColor(cs[i].key)
  {
    seq(|cs|, i requires 0 <= i < |cs| => FixColor(cs[i]))
  }

  /** How many entries fail the hex test. */
  function CountInvalid(cs: seq<ColorEntry>): (n: nat)
    ensures n <= |cs|
  {
    if cs == [] then 0 else (if ValidColor(cs[|cs| - 1]) then 0 else 1) + CountInvalid(cs[..|cs| - 1])
  }

  /** The warnings reported for `cs` are exactly the failing keys of `cs`. */
  ghost predicate ReportsFailures(cs: seq<ColorEntry>, w: seq<Warning>) {
    && (forall j :: 0 <= j < |w| ==> w[j].InvalidColor?)
    && (w == [] <==> forall i :: 0 <= i < |cs| ==> ValidColor(cs[i]))
    && (forall i :: 0 <= i < |cs| && !ValidColor(cs[i]) ==> InvalidColor(cs[i].key) in w)
    && (forall x :: x in w ==> exists i :: 0 <= i < |cs| && !ValidColor(cs[i]) && x == InvalidColor(cs[i].key))
  }

  /** Appending one entry keeps the warnings matched to the failing entries:
      if `rest` reports the failures of `init`, then `rest` plus a warning for a
      failing `last` reports those of `init + [last]`. */
  lemma {:induction false} WarningsExtend(init: seq<ColorEntry>, last: ColorEntry, rest: seq<Warning>)
    requires ReportsFailures(init, rest)
    ensures ReportsFailures(init + [last], rest + (if ValidColor(last) then [] else [InvalidColor(last.key)]))
  {
    var cs := init + [last];
    var w := rest + (if ValidColor(last) then [] else [InvalidColor(last.key)]);
    assert forall i :: 0 <= i < |init| ==> cs[i] == init[i];
    assert cs[|init|] == last;
    forall x | x in w
      ensures exists i :: 0 <= i < |cs| && !ValidColor(cs[i]) && x == InvalidColor(cs[i].key)
    {
      if x in rest {
        var i :| 0 <= i < |init| && !ValidColor(init[i]) && x == InvalidColor(init[i].key);
        assert cs[i] == init[i];
      }
    }
  }

  /** One `InvalidColor` warning per failing entry: every failing entry's key is
      reported, every warning names a failing entry, and there are as many
      warnings as failing entries. */
  function ColorWarnings(cs: seq<ColorEntry>): (w: seq<Warning>)
    ensures |w| == CountInvalid(cs)
    ensures forall j :: 0 <= j < |w| ==> w[j].InvalidColor?
    ensures w == [] <==> forall i :: 0 <= i < |cs| ==> ValidColor(cs[i])
    ensures forall i :: 0 <= i < |cs| && !ValidColor(cs[i]) ==> InvalidColor(cs[i].key) in w
    ensures forall x :: x in w ==> exists i :: 0 <= i < |cs| && !ValidColor(cs[i]) && x == InvalidColor(cs[i].key)
  {
    if cs == [] then []
    else
      var init := cs[..|cs| - 1];
      var last := cs[|cs| - 1];
      var rest := ColorWarnings(init);
      assert ReportsFailures(init, rest);
      WarningsExtend(init, last, rest);
      assert cs == init + [last];
      rest + (if ValidColor(last) then [] else [InvalidColor(last.key)])
  }

  /** `!config.valentineName`: missing or empty. */
  predicate NameMissingOrEmpty(n: Option<string>) {
    n.None? || n.value == ""
  }

  predicate SizeOutOfRange(x: Option<real>) {
    x.Some? && (x.value < 1.0 || x.value > 3.0)
  }

  /** A configuration on which validation has nothing to say. */
  predicate WellFormed(c: Config) {
    && !NameMissingOrEmpty(c.valentineName)
    && (forall i :: 0 <= i < |c.colors| ==> ValidColor(c.colors[i]))
    && !SizeOutOfRange(c.heartExplosionSize)
  }

  /** `validateConfig`: default a missing or empty name, repair invalid colours,
      reset an out-of-range explosion size to 1.5, and report each repair. */
  function Validate(c: Config): (r: Validated)
    ensures NameMissingOrEmpty(c.valentineName) ==> r.config.valentineName == Some(DefaultName)
    ensures !NameMissingOrEmpty(c.valentineName) ==> r.config.valentineName == c.valentineName
    ensures r.config.colors == FixColors(c.colors)
    ensures SizeOutOfRange(c.heartExplosionSize) ==> r.config.heartExplosionSize == Some(DefaultExplosionSize)
    ensures !SizeOutOfRange(c.heartExplosionSize) ==> r.config.heartExplosionSize == c.heartExplosionSize
    ensures r.config.heartExplosionSize.Some? ==> 1.0 <= r.config.heartExplosionSize.value <= 3.0
    ensures r.config.valentineName.Some? && r.config.valentineName.value != ""
    ensures NameMissing in r.warnings <==> NameMissingOrEmpty(c.valentineName)
    ensures ExplosionSizeOutOfRange in r.warnings <==> SizeOutOfRange(c.heartExplosionSize)
    ensures forall k :: InvalidColor(k) in r.warnings <==>
              exists i :: 0 <= i < |c.colors| && !ValidColor(c.colors[i]) && c.colors[i].key == k
    ensures |r.warnings| == (if NameMissingOrEmpty(c.valentineName) then 1 else 0)
              + CountInvalid(c.colors) + (if SizeOutOfRange(c.heartExplosionSize) then 1 else 0)
  {
    var nameWarn := if NameMissingOrEmpty(c.valentineName) then [NameMissing] else [];
    var name := if NameMissingOrEmpty(c.valentineName) then Some(DefaultName) else c.valentineName;
    var colorWarn := ColorWarnings(c.colors);
    var sizeWarn := if SizeOutOfRange(c.heartExplosionSize) then [ExplosionSizeOutOfRange] else [];
    var size := if SizeOutOfRange(c.heartExplosionSize) then Some(DefaultExplosionSize) else c.heartExplosionSize;
    var w := nameWarn + colorWarn + sizeWarn;
    assert forall j :: 0 <= j < |colorWarn| ==> colorWarn[j] != NameMissing && colorWarn[j] != ExplosionSizeOutOfRange;
    assert NameMissing in w <==> NameMissing in nameWarn;
    assert ExplosionSizeOutOfRange in w <==> ExplosionSizeOutOfRange in sizeWarn;
    assert forall k :: InvalidColor(k) in w <==> InvalidColor(k) in colorWarn;
    Validated(Config(name, FixColors(c.colors), size), w)
  }

  /** Validation is silent exactly on well-formed configurations, and leaves
      those untouched. */
  lemma SilentIffWellFormed(c: Config)
    ensures Validate(c).warnings == [] <==> WellFormed(c)
    ensures WellFormed(c) ==> Validate(c).config == c
  {
    var cs := c.colors;
    if WellFormed(c) {
      assert FixColors(cs) == cs;
    }
  }

  /** When every colour key is one `getDefaultColor` knows, a single validation
      makes the configuration well-formed. */
  lemma KnownKeysRepaired(c: Config)
    requires forall i :: 0 <= i < |c.colors| ==> c.colors[i].key in KnownKeys
    ensures WellFormed(Validate(c).config)
  {
    var r := FixColors(c.colors);
    forall i | 0 <= i < |r|
      ensures ValidColor(r[i])
    {
      assert r[i] == FixColor(c.colors[i]);
    }
  }

  /** Validating twice gives the same configuration as validating once: repaired
      entries are valid, and an unknown key that failed stays `undefined`. The
      second pass can only warn about such unknown keys. */
  lemma ValidateIdempotent(c: Config)
    ensures Validate(Validate(c).config).config == Validate(c).config
    ensures forall w :: w in Validate(Validate(c).config).warnings ==>
              w.InvalidColor? && w.key !in KnownKeys
  {
    var r := Validate(c).config;
    var rr := FixColors(r.colors);
    forall i | 0 <= i < |rr|
      ensures rr[i] == r.colors[i]
    {
      assert r.colors[i] == FixColor(c.colors[i]);
    }
    assert rr == r.colors;
    ColorWarningsUnknown(r.colors);
  }

  /** After one repair, the only entries still failing have unknown keys. */
  lemma {:induction false} ColorWarningsUnknown(cs: seq<ColorEntry>)
    requires forall i :: 0 <= i < |cs| && cs[i].key in KnownKeys ==> ValidColor(cs[i])
    ensures forall w :: w in ColorWarnings(cs) ==> w.InvalidColor? && w.key !in KnownKeys
  {
    if cs != [] {
      ColorWarningsUnknown(cs[1..]);
      assert forall i :: 1 <= i < |cs| ==> cs[1..][i - 1] == cs[i];
    }
  }
}

=== FILE: flow.dfy ===
/** The question flow of script.js as one immutable state and one pure function
    per event handler. What the page shows is reduced to the visible section,
    the message line under the slider and the number in the celebration text. */
module Flow {
  import opened Base
  import KissCounter
  import LoveMeter
  import Burst

  /** The visible section: one of the three questions or the celebration. */
  datatype Question = Question1 | Question2 | Question3 | Celebration

  /** Which burst: the first question's emoji trail (for its Yes or No button),
      or the third question's "Wrong answer!" text. */
  datatype FloaterKind = FirstQuestionEmoji(yes: bool) | WrongAnswerText

  datatype Floater = Floater(kind: FloaterKind, burst: Burst.Burst)

  /** The script's global state: visible section, kiss counter cell, slider
      value, `showingNextMessageLevel`, the message line, every burst ever started
      (none is cancelled), and the count in the celebration message once shown. */
  datatype State = State(
    question: Question,
    kiss: KissCounter.Counter,
    slider: int,
    pending: Option<LoveMeter.Level>,
    text: LoveMeter.Text,
    floaters: seq<Floater>,
    owed: Option<nat>)

  /** The page after `DOMContentLoaded`: question 1 shown, the slider at 100
      (`setInitialPosition`), nothing pending, and the counter as the session left it. */
  function Init(saved: KissCounter.Counter): (s: State)
    ensures s.question == Question1 && s.slider == 100 && s.pending.None?
    ensures s.kiss == saved && s.floaters == [] && s.owed.None?
    ensures Inv(s) <==> KissCounter.Reachable(saved)
  {
    State(Question1, saved, 100, None, LoveMeter.Initial, [], None)
  }

  /** What every state reached from a fresh session satisfies. */
  ghost predicate Inv(s: State) {
    && KissCounter.Reachable(s.kiss)
    && (forall i :: 0 <= i < |s.floaters| ==> Burst.Valid(s.floaters[i].burst))
    && (s.owed.Some? ==> IsPowerOfTwo(s.owed.value))
  }

  /** `handleFirstQuestionClick`: bump the counter and start an emoji burst for
      the clicked button. The visible section does not change. */
  function FirstQuestionClick(s: State, yes: bool, now: int): (r: State)
    ensures r.kiss == KissCounter.Bump(s.kiss)
    ensures r.question == s.question && r.slider == s.slider && r.pending == s.pending
    ensures |r.floaters| == |s.floaters| + 1 && r.floaters[..|s.floaters|] == s.floaters
    ensures r.floaters[|s.floaters|].kind == FirstQuestionEmoji(yes)
    ensures r.floaters[|s.floaters|].burst == Burst.Start(now)
    ensures r.floaters[|s.floaters|].burst.created == Burst.BatchSize
    ensures r == s.(kiss := KissCounter.Bump(s.kiss), floaters := r.floaters)
  {
    var burst := Floater(FirstQuestionEmoji(yes), Burst.Start(now));
    s.(kiss := KissCounter.Bump(s.kiss), floaters := s.floaters + [burst])
  }

  /** `goToSecondQuestion`: show question 2. The slider keeps its value, and
      the counter, pending level and bursts are untouched. */
  function GoToSecondQuestion(s: State): (r: State)
    ensures r.question == Question2
    ensures r.slider == s.slider && r.pending == s.pending && r.kiss == s.kiss
    ensures r == s.(question := Question2)
  {
    s.(question := Question2)
  }

  /** `handleSecondQuestionNext`: at 5000 or more unlock question 3 and clear the
      pending level; below it bump the counter, stay, and leave the high retry
      level pending from 1000 up and the normal one below. */
  function SecondQuestionNext(s: State): (r: State)
    ensures r.question == Question3 <==> s.slider >= 5000 || s.question == Question3
    ensures s.slider >= 5000 ==> r.kiss == s.kiss && r.text == s.text
    ensures s.slider < 5000 ==> r.kiss == KissCounter.Bump(s.kiss) && r.question == s.question
    ensures r.pending.None? <==> s.slider >= 5000
    ensures r.pending == Some(LoveMeter.AtHigh) <==> 1000 <= s.slider < 5000
    ensures r.pending == Some(LoveMeter.AtNormal) <==> s.slider < 1000
    ensures r.pending.Some? ==> r.text == LoveMeter.RetryMessage(r.pending.value)
    ensures r.slider == s.slider && r.floaters == s.floaters && r.owed == s.owed
  {
    var value := s.slider;
    if value >= LoveMeter.ExtremeFrom then
      s.(pending := None, question := Question3)
    else
      var level := LoveMeter.RetryLevel(value);
      s.(kiss := KissCounter.Bump(s.kiss), pending := Some(level), text := LoveMeter.RetryMessage(level))
  }

  /** `onSliderInteraction`: if a retry level is pending, clear it and, above
      100, put the tier message back; otherwise nothing happens. */
  function SliderInteraction(s: State): (r: State)
    ensures r.pending.None?
    ensures s.pending.None? ==> r == s
    ensures s.pending.Some? && LoveMeter.TierOf(s.slider).Some? ==>
              r.text == LoveMeter.LoveMessage(LoveMeter.TierOf(s.slider).value)
    ensures LoveMeter.TierOf(s.slider).None? ==> r.text == s.text
    ensures r == s.(pending := None, text := r.text)
  {
    if s.pending.Some? then
      var t := if s.slider > LoveMeter.NormalAbove then LoveMeter.UpdateLoveMessage(s.slider, s.text) else s.text;
      s.(pending := None, text := t)
    else
      s
  }

  /** The slider's `input` listener: take the new value, run `onSliderInteraction`,
      and above 100 show the value's tier message. At or below 100 the message is
      hidden but its text is left as it was. */
  function SliderInput(s: State, v: int): (r: State)
    ensures r.slider == v && r.pending.None?
    ensures LoveMeter.TierOf(v).Some? ==> r.text == LoveMeter.LoveMessage(LoveMeter.TierOf(v).value)
    ensures LoveMeter.TierOf(v).None? ==> r.text == s.text
    ensures r == s.(slider := v, pending := None, text := r.text)
  {
    var s1 := SliderInteraction(s.(slider := v));
    if v > LoveMeter.NormalAbove then s1.(text := LoveMeter.UpdateLoveMessage(v, s1.text)) else s1
  }

  /** `handleThirdQuestionNoClick`: bump the counter and start a "Wrong answer!"
      burst; question 3 stays. */
  function ThirdQuestionNo(s: State, now: int): (r: State)
    ensures r.kiss == KissCounter.Bump(s.kiss)
    ensures r.question == s.question && r.slider == s.slider && r.pending == s.pending
    ensures |r.floaters| == |s.floaters| + 1 && r.floaters[..|s.floaters|] == s.floaters
    ensures r.floaters[|s.floaters|].kind == WrongAnswerText
    ensures r.floaters[|s.floaters|].burst == Burst.Start(now)
    ensures r.floaters[|s.floaters|].burst.created == Burst.BatchSize
    ensures r == s.(kiss := KissCounter.Bump(s.kiss), floaters := r.floaters)
  {
    s.(kiss := KissCounter.Bump(s.kiss), floaters := s.floaters + [Floater(WrongAnswerText, Burst.Start(now))])
  }

  /** `celebrate`: show the celebration with the number of kisses owed, which is
      the counter when set and 1 otherwise. The counter itself is not touched. */
  function Celebrate(s: State): (r: State)
    ensures r.question == Celebration && r.kiss == s.kiss
    ensures r.owed.Some? && (s.kiss.Some? ==> r.owed.value == s.kiss.value)
    ensures s.kiss.None? ==> r.owed == Some(1)
    ensures r == s.(question := Celebration, owed := r.owed)
  {
    s.(question := Celebration, owed := Some(KissCounter.CelebrationCount(s.kiss)))
  }

  /** `setInitialPosition` run again by the window's `load` event, which may come
      after the user has moved the slider. The value goes back to 100 without an
      `input` event, so the pending level and the message line stay as they were. */
  function SetInitialPosition(s: State): (r: State)
    ensures r.slider == 100
    ensures r.question == s.question && r.kiss == s.kiss && r.pending == s.pending && r.text == s.text
    ensures r == s.(slider := 100)
  {
    s.(slider := 100)
  }

  /** The pending timer of burst `i` firing at `now`. Only that burst changes,
      and it never loses created elements. */
  function TimerFires(s: State, i: nat, now: int): (r: State)
    ensures |r.floaters| == |s.floaters|
    ensures forall j :: 0 <= j < |s.floaters| && j != i ==> r.floaters[j] == s.floaters[j]
    ensures forall j :: 0 <= j < |s.floaters| ==>
              r.floaters[j].kind == s.floaters[j].kind
              && r.floaters[j].burst.endAt == s.floaters[j].burst.endAt
              && r.floaters[j].burst.created >= s.floaters[j].burst.created
    ensures i < |s.floaters| ==> r.floaters[i].burst == Burst.Fire(s.floaters[i].burst, now).0
    ensures r == s.(floaters := r.floaters)
  {
    if i < |s.floaters| then
      var f := s.floaters[i];
      s.(floaters := s.floaters[i := Floater(f.kind, Burst.Fire(f.burst, now).0)])
    else
      s
  }

  /** The user's actions and the timer callbacks, with clock readings where
      the handler reads the clock. */
  datatype Event =
    | FirstQuestionClicked(yes: bool, now: int)
    | SecondQuestionShown
    | SliderMoved(value: int)
    | SliderPressed
    | NextClicked
    | ThirdQuestionNoClicked(now: int)
    | Celebrated
    | TimerFired(index: nat, now: int)
    | WindowLoaded

  function Step(s: State, e: Event): State {
    match e
    case FirstQuestionClicked(yes, now) => FirstQuestionClick(s, yes, now)
    case SecondQuestionShown => GoToSecondQuestion(s)
    case SliderMoved(v) => SliderInput(s, v)
    case SliderPressed => SliderInteraction(s)
    case NextClicked => SecondQuestionNext(s)
    case ThirdQuestionNoClicked(now) => ThirdQuestionNo(s, now)
    case Celebrated => Celebrate(s)
    case TimerFired(i, now) => TimerFires(s, i, now)
    case WindowLoaded => SetInitialPosition(s)
  }

  function Run(s: State, es: seq<Event>): State
    decreases |es|
  {
    if es == [] then s else Run(Step(s, es[0]), es[1..])
  }

  /** Every handler keeps the counter a power of two, every burst within its cap,
      and the celebration count a power of two. */
  lemma StepKeepsInv(s: State, e: Event)
    requires Inv(s)
    ensures Inv(Step(s, e))
  {
    var r := Step(s, e);
    match e
    case FirstQuestionClicked(_, _) =>
      KissCounter.BumpKeepsReachable(s.kiss);
    case ThirdQuestionNoClicked(_) =>
      KissCounter.BumpKeepsReachable(s.kiss);
    case NextClicked =>
      KissCounter.BumpKeepsReachable(s.kiss);
    case Celebrated =>
      if s.kiss.None? {
        assert Pow2(0) == 1;
      }
    case TimerFired(i, now) =>
      forall j | 0 <= j < |r.floaters|
        ensures Burst.Valid(r.floaters[j].burst)
      {
        if j == i {
          assert r.floaters[j].burst == Burst.Fire(s.floaters[j].burst, now).0;
        }
      }
    case _ =>
  }

  lemma {:induction false} RunKeepsInv(s: State, es: seq<Event>)
    requires Inv(s)
    ensures Inv(Run(s, es))
    decreases |es|
  {
    if es != [] {
      StepKeepsInv(s, es[0]);
      RunKeepsInv(Step(s, es[0]), es[1..]);
    }
  }

  /** No handler lowers the counter or clears a set counter. */
  lemma StepNeverLowersCounter(s: State, e: Event)
    ensures KissCounter.Count(Step(s, e).kiss) >= KissCounter.Count(s.kiss)
    ensures s.kiss.Some? ==> Step(s, e).kiss.Some?
  {
  }

  /** Over any sequence of events the counter never decreases, and each burst
      already started keeps its kind and deadline and never loses elements. */
  lemma {:induction false} RunMonotone(s: State, es: seq<Event>)
    requires Inv(s)
    ensures KissCounter.Count(Run(s, es).kiss) >= KissCounter.Count(s.kiss)
    ensures s.kiss.Some? ==> Run(s, es).kiss.Some?
    ensures |Run(s, es).floaters| >= |s.floaters|
    ensures forall j :: 0 <= j < |s.floaters| ==>
              Run(s, es).floaters[j].kind == s.floaters[j].kind
              && Run(s, es).floaters[j].burst.endAt == s.floaters[j].burst.endAt
              && Run(s, es).floaters[j].burst.created >= s.floaters[j].burst.created
    decreases |es|
  {
    if es != [] {
      var s1 := Step(s, es[0]);
      StepNeverLowersCounter(s, es[0]);
      StepKeepsInv(s, es[0]);
      RunMonotone(s1, es[1..]);
      assert |s1.floaters| >= |s.floaters|;
      assert forall j :: 0 <= j < |s.floaters| ==>
        s1.floaters[j].kind == s.floaters[j].kind
        && s1.floaters[j].burst.endAt == s.floaters[j].burst.endAt
        && s1.floaters[j].burst.created >= s.floaters[j].burst.created;
    }
  }

  /** In every state reached from a fresh session, each burst has created at
      most 100 elements, and the celebration owes a positive number of kisses. */
  lemma ReachableBounds(saved: KissCounter.Counter, es: seq<Event>)
    requires KissCounter.Reachable(saved)
    ensures forall i :: 0 <= i < |Run(Init(saved), es).floaters| ==>
              Run(Init(saved), es).floaters[i].burst.created <= Burst.MaxTotal
    ensures Run(Init(saved), es).owed.Some? ==> Run(Init(saved), es).owed.value >= 1
  {
    RunKeepsInv(Init(saved), es);
  }

  /** Question 3 is only ever entered by "Next" with the slider at 5000 or more. */
  lemma Question3OnlyByUnlock(s: State, e: Event)
    requires s.question != Question3 && Step(s, e).question == Question3
    ensures e == NextClicked && s.slider >= 5000
  {
  }

  /** In a reachable state, "Next" leaves the counter unchanged exactly when it
      unlocks question 3. */
  lemma NextBumpsIffLocked(s: State)
    requires Inv(s)
    ensures SecondQuestionNext(s).kiss == s.kiss <==> s.slider >= 5000
  {
    if s.slider < 5000 {
      KissCounter.BumpKeepsReachable(s.kiss);
    }
  }

  /** Pressing the slider twice has the effect of pressing it once. */
  lemma SliderPressIdempotent(s: State)
    ensures SliderInteraction(SliderInteraction(s)) == SliderInteraction(s)
  {
  }

  /** After a failed "Next", touching the slider clears the retry level and,
      above 100, shows the tier message for the unchanged value again. */
  lemma RetryClearedByTouch(s: State)
    requires s.slider < 5000
    ensures SliderInteraction(SecondQuestionNext(s)).pending.None?
    ensures LoveMeter.TierOf(s.slider).Some? ==>
              SliderInteraction(SecondQuestionNext(s)).text
                == LoveMeter.LoveMessage(LoveMeter.TierOf(s.slider).value)
    ensures LoveMeter.TierOf(s.slider).None? ==>
              SliderInteraction(SecondQuestionNext(s)).text
                == LoveMeter.RetryMessage(LoveMeter.AtNormal)
  {
  }

  /** A `load` event that arrives after the slider was moved to 5000 undoes the
      unlock: "Next" then reads 100, bumps the counter and stays on question 2. */
  lemma LateLoadBlocksUnlock(s: State)
    requires s.question == Question2
    ensures SecondQuestionNext(SliderInput(s, 5000)).question == Question3
    ensures var r := SecondQuestionNext(SetInitialPosition(SliderInput(s, 5000)));
            && r.question == Question2
            && r.kiss == KissCounter.Bump(s.kiss)
            && r.pending == Some(LoveMeter.AtNormal)
  {
  }

  /** The position of a section in the flow. */
  function Order(q: Question): nat {
    match q
    case Question1 => 0
    case Question2 => 1
    case Question3 => 2
    case Celebration => 3
  }

  /** An event the user can cause in state `s`: each button lives in one section
      and can only be clicked while that section is shown; timers fire at any time.
      The celebration is reached from question 3's "Yes". */
  predicate Clickable(s: State, e: Event) {
    match e
    case FirstQuestionClicked(_, _) => s.question == Question1
    case SecondQuestionShown => s.question == Question1
    case SliderMoved(_) => s.question == Question2
    case SliderPressed => s.question == Question2
    case NextClicked => s.question == Question2
    case ThirdQuestionNoClicked(_) => s.question == Question3
    case Celebrated => s.question == Question3
    case TimerFired(_, _) => true
    case WindowLoaded => true
  }

  predicate ClickableRun(s: State, es: seq<Event>)
    decreases |es|
  {
    es == [] || (Clickable(s, es[0]) && ClickableRun(Step(s, es[0]), es[1..]))
  }

  /** Along events the user can cause, the flow only moves forward. */
  lemma {:induction false} FlowMovesForward(s: State, es: seq<Event>)
    requires ClickableRun(s, es)
    ensures Order(Run(s, es).question) >= Order(s.question)
    decreases |es|
  {
    if es != [] {
      FlowMovesForward(Step(s, es[0]), es[1..]);
    }
  }

  lemma RunCons(s: State, e: Event, es: seq<Event>)
    ensures Run(s, [e] + es) == Run(Step(s, e), es)
  {
    assert ([e] + es)[1..] == es;
  }

  /** Starting a second emoji burst does not stop the first: both timers stay
      pending, and two clicks 10 ms apart have created 20 elements. */
  lemma BurstsAreNotCancelled(s: State, t: int)
    ensures var r := Run(s, [FirstQuestionClicked(false, t), FirstQuestionClicked(true, t + 10)]);
            && |r.floaters| == |s.floaters| + 2
            && r.floaters[|s.floaters|].burst.armed
            && r.floaters[|s.floaters| + 1].burst.armed
            && r.floaters[|s.floaters|].burst.created + r.floaters[|s.floaters| + 1].burst.created == 20
  {
    var e1 := FirstQuestionClicked(false, t);
    var e2 := FirstQuestionClicked(true, t + 10);
    RunCons(s, e1, [e2]);
    RunCons(Step(s, e1), e2, []);
  }

  /** A session from a fresh tab: "No" on question 1, then question 2 with the
      slider moved to 1000 and "Next", then the slider at 5000 and "Next", then
      "No" on question 3 and the celebration, which owes 4 kisses. */
  lemma SampleSession(t: int)
    ensures var s1 := Step(Init(None), FirstQuestionClicked(false, t));
            s1.kiss == Some(1) && s1.question == Question1
    ensures var s2 := Step(Step(Step(Step(Init(None), FirstQuestionClicked(false, t)),
                                     SecondQuestionShown), SliderMoved(1000)), NextClicked);
            && s2.kiss == Some(2) && s2.question == Question2
            && s2.pending == Some(LoveMeter.AtHigh)
            && s2.text == LoveMeter.RetryMessage(LoveMeter.AtHigh)
    ensures var s2 := Step(Step(Step(Step(Init(None), FirstQuestionClicked(false, t)),
                                     SecondQuestionShown), SliderMoved(1000)), NextClicked);
            var s3 := Step(Step(Step(Step(s2, SliderMoved(5000)), NextClicked),
                                ThirdQuestionNoClicked(t + 5000)), Celebrated);
            && s3.question == Celebration && s3.owed == Some(4)
  {
  }
}

=== FILE: kiss_counter.dfy ===
/** The kiss counter of script.js: a number kept in the tab's session storage under
    one fixed key, absent until the first "wrong" interaction. The storage cell is
    modelled as an `Option<nat>`; reading it is `getKissCount`, writing it `setKissCount`. */
module KissCounter {
  import opened Base

  /** The session cell: `None` while nothing is stored under the key. */
  type Counter = Option<nat>

  /** The counter as a plain number, an unset cell counting as 0. */
  function Count(c: Counter): nat {
    c.GetOr(0)
  }

  /** The rule shared by handleFirstQuestionClick, handleThirdQuestionNo and the
      non-unlocking branch of handleSecondQuestionNext: unset becomes 1, n becomes 2n.
      The result is always set, never smaller than before, and `Unbump` recovers the
      previous cell from it. */
  function Bump(c: Counter): (r: Counter)
    ensures r.Some?
    ensures r.value == 1 <==> c.None?
    ensures Count(r) >= Count(c)
    ensures c.None? || c.value >= 1 ==> Count(r) > Count(c) && r.value >= 1
    ensures c.Some? ==> r.value % 2 == 0
    ensures Unbump(r.value) == c
  {
    match c
    case None => Some(1)
    case Some(n) => Some(n * 2)
  }

  /** The inverse of `Bump` on the values it produces: 1 came from an unset
      cell, any even value from its half. */
  function Unbump(n: nat): Counter {
    if n == 1 then None else Some(n / 2)
  }

  /** The counter after `k` bumps. */
  function BumpN(c: Counter, k: nat): Counter {
    if k == 0 then c else Bump(BumpN(c, k - 1))
  }

  /** The cells a session can produce: unset, or a power of two. */
  ghost predicate Reachable(c: Counter) {
    c.None? || IsPowerOfTwo(c.value)
  }

  /** Bumping keeps the counter a power of two. */
  lemma BumpKeepsReachable(c: Counter)
    requires Reachable(c)
    ensures Reachable(Bump(c))
    ensures Bump(c).value >= 1
  {
    match c
    case None =>
      assert Pow2(0) == 1;
    case Some(n) =>
      var k: nat :| Pow2(k) == n;
      assert Pow2(k + 1) == 2 * n;
  }

  /** Starting from an unset cell, `k >= 1` wrong interactions leave exactly 2^(k-1). */
  lemma {:induction false} BumpNFromUnset(k: nat)
    requires k >= 1
    ensures BumpN(None, k) == Some(Pow2(k - 1))
  {
    if k > 1 {
      BumpNFromUnset(k - 1);
    }
  }

  /** Repeated bumps never lower the counter once it is set to a positive value. */
  lemma {:induction false} BumpNNeverDecreases(c: Counter, k: nat)
    requires c.None? || c.value >= 1
    ensures Count(BumpN(c, k)) >= Count(c)
    ensures k >= 1 ==> BumpN(c, k).Some? && BumpN(c, k).value >= 1
  {
    if k > 0 {
      BumpNNeverDecreases(c, k - 1);
    }
  }

  /** The number shown by `celebrate`: the stored counter, or 1 when unset. */
  function CelebrationCount(c: Counter): (m: nat)
    ensures Reachable(c) ==> m >= 1
  {
    if c.Some? then c.value else 1
  }

  /** With `k` wrong interactions in the session the celebration message owes
      2^(k-1) kisses, and 1 when there were none. */
  lemma CelebrationCountAfter(k: nat)
    ensures CelebrationCount(BumpN(None, k)) == if k == 0 then 1 else Pow2(k - 1)
  {
    if k >= 1 {
      BumpNFromUnset(k);
    }
  }

  // ---------------------------------------------------------------------------
  // The cell as the script actually writes and reads it.
  //
  // setKissCount stores String(value) and getKissCount reads parseInt(raw, 10).
  // Counter values are powers of two, which a JavaScript number holds exactly.
  // Below 10^21 String writes the shortest digits that identify the number,
  // padded with zeros to an integer (2^69 = 590295810358705651712 is written
  // "590295810358705700000"), and parseInt rounds that back to the same number,
  // so the round trip is exact. From 10^21 on String switches to exponent
  // notation ("1.1805916207174113e+21" for 2^70) and parseInt stops at the '.',
  // reading back only the leading digit.

  /** The smallest magnitude that String writes in exponent notation. */
  const ExponentFormFrom: nat := 1_000_000_000_000_000_000_000

  function Pow10(k: nat): (p: nat)
    ensures p >= 1
  {
    if k == 0 then 1 else 10 * Pow10(k - 1)
  }

  /** The first decimal digit of `n`. */
  function LeadingDigit(n: nat): (d: nat)
    ensures d < 10
    ensures n >= 1 ==> d >= 1
  {
    if n < 10 then n else LeadingDigit(n / 10)
  }

  /** The number getKissCount returns after setKissCount stored `n`. */
  function ReadBack(n: nat): nat {
    if n < ExponentFormFrom then n else LeadingDigit(n)
  }

  /** `getKissCount` as written: the cell read back through String/parseInt. */
  function Load(stored: Counter): (r: Counter)
    ensures r.None? <==> stored.None?
    ensures stored.Some? && stored.value < ExponentFormFrom ==> r == stored
    ensures stored.Some? && stored.value >= ExponentFormFrom ==> r.value < 10
  {
    match stored
    case None => None
    case Some(n) => Some(ReadBack(n))
  }

  /** The bump as written: read through String/parseInt, then double. */
  function BumpAsWritten(stored: Counter): (r: Counter)
    ensures stored.Some? && stored.value < ExponentFormFrom ==> r == Bump(stored)
  {
    Bump(Load(stored))
  }

  /** The number `celebrate` shows as written: the cell read back through
      String/parseInt, or 1 when unset. */
  function CelebrationCountAsWritten(stored: Counter): (m: nat)
    ensures stored.None? ==> m == 1
    ensures stored.Some? && stored.value < ExponentFormFrom ==> m == CelebrationCount(stored)
  {
    CelebrationCount(Load(stored))
  }

  /** A number with k+1 digits whose first digit is 1 reads back as 1. */
  lemma {:induction false} LeadingDigitOne(n: nat, k: nat)
    requires Pow10(k) <= n < 2 * Pow10(k)
    ensures LeadingDigit(n) == 1
  {
    if k > 0 {
      var p := Pow10(k - 1);
      assert 10 * p <= n < 20 * p;
      assert p <= n / 10 < 2 * p;
      LeadingDigitOne(n / 10, k - 1);
    }
  }

  lemma Pow2Sum(a: nat, b: nat)
    ensures Pow2(a + b) == Pow2(a) * Pow2(b)
  {
    if a > 0 {
      Pow2Sum(a - 1, b);
    }
  }

  lemma Pow2Of20()
    ensures Pow2(20) == 1048576
  {
    assert Pow2(10) == 1024;
    Pow2Sum(10, 10);
  }

  lemma Pow2Of60()
    ensures Pow2(60) == 1152921504606846976
  {
    Pow2Of20();
    Pow2Sum(20, 20);
    assert Pow2(40) == 1099511627776;
    Pow2Sum(40, 20);
  }

  lemma Pow2Of70()
    ensures Pow2(69) == 590295810358705651712
    ensures Pow2(70) == 1180591620717411303424
  {
    Pow2Of60();
    assert Pow2(9) == 512;
    Pow2Sum(60, 9);
  }

  lemma Pow10Of21()
    ensures Pow10(21) == ExponentFormFrom
  {
    assert Pow10(7) == 10000000;
    assert Pow10(14) == 100000000000000 by {
      Pow10Sum(7, 7);
    }
    Pow10Sum(14, 7);
  }

  lemma Pow10Sum(a: nat, b: nat)
    ensures Pow10(a + b) == Pow10(a) * Pow10(b)
  {
    if a > 0 {
      Pow10Sum(a - 1, b);
    }
  }

  /** The 69th and 70th doublings as written: 2^69 still round-trips and is
      doubled to 2^70, but 2^70 is stored in exponent form, so the next wrong
      answer reads 1 and stores 2: the counter falls back. */
  lemma StoredCounterFallsBackAt70()
    ensures Pow2(69) < ExponentFormFrom <= Pow2(70)
    ensures BumpAsWritten(Some(Pow2(69))) == Some(Pow2(70))
    ensures BumpAsWritten(Some(Pow2(70))) == Some(2)
    ensures Count(BumpAsWritten(Some(Pow2(70)))) < Count(Some(Pow2(70)))
    ensures CelebrationCountAsWritten(Some(Pow2(70))) == 1
  {
    Pow2Of70();
    Pow10Of21();
    LeadingDigitOne(Pow2(70), 21);
  }

  /** For the first 70 wrong interactions the stored counter stays below 10^21,
      so the celebration as written shows the idealised count. */
  lemma CelebrationAsWrittenAgrees(k: nat)
    requires k <= 70
    ensures CelebrationCountAsWritten(BumpN(None, k)) == CelebrationCount(BumpN(None, k))
  {
    if k >= 1 {
      BumpNFromUnset(k);
      Pow2Monotone(k - 1, 69);
      StoredCounterFallsBackAt70();
    }
  }

  /** After 71 wrong interactions the idealised cell holds 2^70, but the page
      reads the stored "1.1805916207174113e+21" back as 1 and the celebration
      owes 1 kiss. */
  lemma CelebrationAfter71AsWritten()
    ensures CelebrationCount(BumpN(None, 71)) == Pow2(70)
    ensures CelebrationCountAsWritten(BumpN(None, 71)) == 1
  {
    BumpNFromUnset(71);
    StoredCounterFallsBackAt70();
  }

  lemma {:induction false} Pow2Monotone(a: nat, b: nat)
    requires a <= b
    ensures Pow2(a) <= Pow2(b)
    decreases b
  {
    if a < b {
      Pow2Monotone(a, b - 1);
    }
  }
}

=== FILE: love_meter.dfy ===
/** The love-meter thresholds of question 2: which love message a slider value
    selects (`updateLoveMessageFromValue`) and which retry level "Next" records
    (`handleSecondQuestionNext`). Message texts are abstracted to which message. */
module LoveMeter {
  import opened Base

  /** The three entries of `config.loveMessages`. */
  datatype Tier = Normal | High | Extreme

  /** The retry level a failed "Next" leaves pending (`showingNextMessageLevel`). */
  datatype Level = AtNormal | AtHigh

  /** What the message line under the slider says. `Initial` is the page's own
      text before any handler has written it. */
  datatype Text = Initial | LoveMessage(tier: Tier) | RetryMessage(level: Level)

  const NormalAbove: int := 100
  const HighAbove: int := 1000
  const ExtremeFrom: int := 5000

  /** The tier a value falls in, read from the bottom band up; `None` at or below 100. */
  function TierOf(v: int): (t: Option<Tier>)
    ensures t == Some(Extreme) <==> v >= 5000
    ensures t == Some(High) <==> 1000 < v < 5000
    ensures t == Some(Normal) <==> 100 < v <= 1000
    ensures t == None <==> v <= 100
  {
    if v <= NormalAbove then None
    else if v <= HighAbove then Some(Normal)
    else if v < ExtremeFrom then Some(High)
    else Some(Extreme)
  }

  /** `updateLoveMessageFromValue`: overwrite the message with the value's tier
      message, or leave it alone at or below 100. */
  function UpdateLoveMessage(v: int, t: Text): (r: Text)
    ensures TierOf(v).Some? ==> r == LoveMessage(TierOf(v).value)
    ensures TierOf(v).None? ==> r == t
  {
    if v >= ExtremeFrom then LoveMessage(Extreme)
    else if v > HighAbove then LoveMessage(High)
    else if v > NormalAbove then LoveMessage(Normal)
    else t
  }

  /** The retry level of a failed "Next" (only used below 5000): high from 1000
      up, normal below. */
  function RetryLevel(v: int): (l: Level)
    ensures l == AtHigh <==> v >= 1000
    ensures l == AtNormal <==> v < 1000
  {
    if v >= HighAbove then AtHigh else AtNormal
  }

  function Rank(t: Option<Tier>): nat {
    match t
    case None => 0
    case Some(Normal) => 1
    case Some(High) => 2
    case Some(Extreme) => 3
  }

  /** Sliding further never selects a lower tier. */
  lemma TierMonotone(v: int, w: int)
    requires v <= w
    ensures Rank(TierOf(v)) <= Rank(TierOf(w))
  {
  }

  /** Below the unlock value, "Next" reports the high level exactly where the
      meter shows the high tier, plus the single value 1000, which the meter
      still counts as normal. */
  lemma RetryLevelVersusTier(v: int)
    requires v < 5000
    ensures RetryLevel(v) == AtHigh <==> TierOf(v) == Some(High) || v == 1000
    ensures RetryLevel(1000) == AtHigh && TierOf(1000) == Some(Normal)
  {
  }

  /** Updating twice with the same value is the same as updating once. */
  lemma UpdateIdempotent(v: int, t: Text)
    ensures UpdateLoveMessage(v, UpdateLoveMessage(v, t)) == UpdateLoveMessage(v, t)
  {
  }
}
